=== FILE: README.md ===
# FSMLight in Dafny

A model of the FSMLight engine, a small synchronous finite-state machine. A
machine is a list of states. Each state has a handler that returns an `int`,
plus an optional array of input transition ids and an optional array of output
transition ids. The engine:

- registers states and rejects malformed declarations (`AddMethod`);
- resolves a produced transition id to the next state, to "stopped", or to an
  error (`PickState`). This covers the sentinels `START = -1`,
  `FINISHED = -2` and `DEFAULT = -3`;
- steps the machine one handler at a time (`SingleStep`), and can be reset
  (`Reset`).

`FiniteStateMachineSet` holds many machines. It steps them all, and it prunes
the machines that have stopped.

Modules:

- `Wrappers` (`wrappers.dfy`): `Option` stands for a nullable reference, and
  `Result` for an operation that may throw.
- `States` (`states.dfy`): the `State` record, with its set-once `Ins`/`Outs`
  properties. The flags `inputSet`/`outputSet` mirror `input_set`/`output_set`.
- `Fsm` (`fsm.dfy`): the sentinels, `Register`, `Pick`, `Step`, `Reset` and
  `IsStopped`. The `States` getter is the `states` field of `Machine`,
  except that the getter returns null where the model has `[]`.
- `FsmProperties` (`fsm_properties.dfy`): resolution and stepping, stated
  against independent definitions. `UniqueWhere` means "this is the only state
  that qualifies". `NoOutputs` means "a stop state".
- `MachineSets` (`machine_sets.dfy`): `Add`, `Remove`, `RemoveAllStopped`,
  `SingleStepAll` and enumeration.

Handlers are not modelled. `Step(m, produced)` takes the id that the running
handler returns. `StepResult.ran` names the state whose handler ran, or `None`
when the machine was already stopped, so "exactly one handler per step" is
part of `Step`'s contract. The set compares machines by reference. So
`MachineSet` holds handles, and a `Heap` maps each handle to its machine.

Source behaviour the model keeps as written:

- Uniqueness of the start state is checked only lazily, each time `START` is
  resolved (FSMLight/FSM.cs:269-274). Nothing checks the whole graph up front.
- Output ids are held in an array. `DEFAULT` tests the array's length, so
  outputs `[7, 7]` make `DEFAULT` ambiguous (FSMLight/FSM.cs:286-293).
- `FINISHED` from a state with outputs has no error of its own. It falls
  through to "unsupported output", because a registered output is never
  negative (`StepFinishedWithOutputs`).
- A handler that returns `START` re-selects the start state instead of
  failing (`PickStartResolution` holds for any current state).
- No declared input and several declared inputs for a produced id give the
  same error.
- `AddMethod` rejects a method with no attribute, but its only caller, the
  constructor, skips such methods first. So construction never fails that way
  (`Construct`, `ConstructSkipsUnattributed`).
- `AddMethod` also rejects two Inputs or two Outputs attributes on one
  method. Neither attribute allows multiple use
  (FSMDemo/FSMDemo/FSMLight/CustomAttributes.cs:8, 23), so reflection never
  yields two, and construction cannot fail with `MultipleInputs` or
  `MultipleOutputs`. The model's `Construct` accepts such a `Declaration` and
  reports the error as `AddMethod` would.

## Model

| member | source | states |
|---|---|---|
| States.SetIns | FSMDemo/FSMDemo/FSMLight/State.cs:34-45 | The first assignment stores the value, even null, and raises the input flag. Once the flag is up, the assignment fails. Outputs and the output flag never change. |
| States.SetOuts | FSMDemo/FSMDemo/FSMLight/State.cs:53-64 | The first assignment stores the value and raises the output flag. Once the flag is up, the assignment fails. Inputs and the input flag never change. |
| States.SetInputs | FSMDemo/FSMDemo/FSMLight/State.cs:15-18 | Assigns the given array through the `Ins` setter, so it is also set-once. It leaves the outputs alone. |
| States.SetOutputs | FSMDemo/FSMDemo/FSMLight/State.cs:19-22 | Assigns the given array through the `Outs` setter, so it is also set-once. It leaves the inputs alone. |
| States.Fresh | FSMDemo/FSMDemo/FSMLight/State.cs:10-14 | A new state has null inputs and outputs, and either property accepts any first assignment. |
| States.FreshAssignsOnce | FSMDemo/FSMDemo/FSMLight/State.cs:10-14 | A new state has null arrays and no flag raised. It accepts one assignment of each property, storing exactly the values given. Any further assignment of either property fails. |
| States.InsSetOnce | FSMDemo/FSMDemo/FSMLight/State.cs:36-39 | After a successful `Ins` assignment, every later assignment through `Ins` or `SetInputs` throws. |
| States.OutsSetOnce | FSMDemo/FSMDemo/FSMLight/State.cs:55-58 | After a successful `Outs` assignment, every later assignment through `Outs` or `SetOutputs` throws. |
| States.InsOutsCommute | FSMDemo/FSMDemo/FSMLight/State.cs:28-65 | The two properties are independent. Assigning them in either order succeeds under the same condition and gives the same state. |
| Fsm.Register | FSMLight/FSM.cs:216-256 | Registration succeeds iff at least one declaration exists, there is at most one of each kind, and no id is negative. Each failure gives the error of the first check that fails, in source order. On success it appends exactly one state, keeps the earlier states unchanged, and stores the declared arrays (null when undeclared). |
| Fsm.RegisterAll | FSMLight/FSM.cs:143-156 | Registering declarations one by one succeeds iff each one alone would be accepted. On success the result is the old states followed by, for each declaration in order, the state holding its declared arrays (null when undeclared). Every id stays non-negative. |
| Fsm.RegisterAllRejects | FSMLight/FSM.cs:143-156 | A rejected list fails with exactly the error that its first rejected declaration gives on its own. Later declarations play no part. |
| Fsm.RegisterAllAttributed | FSMLight/FSM.cs:150-154 | When every declaration has an attribute, registration never fails with "at least one Input or Output attribute". |
| Fsm.Scanned | FSMLight/FSM.cs:143-150 | The scan keeps exactly the declarations with at least one Inputs or Outputs attribute. When all have one, it keeps them all. |
| Fsm.ScannedSingle | FSMLight/FSM.cs:150-154 | One method contributes itself when it has an attribute, and nothing otherwise. |
| Fsm.ScannedAppend | FSMLight/FSM.cs:143-155 | Scanning a concatenation scans each part, so copies and scan order are kept. Two identically attributed handlers give two states. |
| Fsm.ScannedAcceptable | FSMLight/FSM.cs:150-154 | The scanned list is acceptable iff every attributed declaration is. Every scanned declaration has an attribute. |
| Fsm.Construct | FSMLight/FSM.cs:139-156 | Construction skips methods without attributes, so it never fails with "at least one Input or Output attribute". For handlers with the signature `int()`, it succeeds iff every attributed declaration is acceptable. The i-th state holds the i-th attributed declaration's arrays. The machine has no current state and is not stopped. |
| FsmProperties.ConstructSkipsUnattributed | FSMLight/FSM.cs:143-155 | A handler with output 1 next to a method with no attributes yields a one-state machine, not an error. |
| Fsm.IndicesWhere | FSMLight/FSM.cs:305 | The query yields exactly the positions of the qualifying states, strictly increasing (list order). |
| Fsm.PickStart | FSMLight/FSM.cs:271-274 | Start selection yields a valid position, or the "no unique start state" error. |
| Fsm.Follow | FSMLight/FSM.cs:305-308 | Input lookup yields a valid position, or the "input mapped in multiple states" error. |
| Fsm.Pick | FSMLight/FSM.cs:267-312 | A selected state is a valid position. `START` never stops. A stop only happens from a current state with null or empty outputs. |
| FsmProperties.StoppedIffIdle | FSMLight/FSM.cs:173-179 | `Stopped` is true exactly when a step is a no-op: it returns false, runs no handler and leaves the machine unchanged. |
| Fsm.Reset | FSMLight/FSM.cs:184-188 | Clears both the current state and the stopped flag, and keeps the states. |
| Fsm.Step | FSMLight/FSM.cs:194-209 | A stopped machine returns false, runs no handler and does not change. An unstopped machine with no states fails with "no states". Otherwise exactly one handler runs: the current state's, or the start state's on the first step. The result is the negation of stopped. A stop leaves the current state in place. |
| FsmProperties.SingletonIffUnique | FSMLight/FSM.cs:272-274 | The match list is exactly `[k]` iff `k` is the one and only state that qualifies. |
| FsmProperties.PickStartSpec | FSMLight/FSM.cs:271-274 | Start selection returns `k` iff `k` is the unique state with null inputs. It fails iff there are zero or several such states. |
| FsmProperties.FollowSpec | FSMLight/FSM.cs:305-308 | Lookup returns `k` iff `k` is the unique state whose inputs contain the id. Zero and several acceptors fail alike. |
| FsmProperties.PickStartResolution | FSMLight/FSM.cs:269-275 | Resolving `START` from any current state selects the unique start state, or fails with "no unique start state". |
| FsmProperties.PickBeforeStart | FSMLight/FSM.cs:276-279 | With no current state, any id other than `START` fails with "must start at start state". |
| FsmProperties.PickFinished | FSMLight/FSM.cs:282-285 | `FINISHED` from a state with null or empty outputs stops. From a well-formed state with outputs it is an unsupported id. |
| FsmProperties.PickDefault | FSMLight/FSM.cs:286-301 | `DEFAULT` stops when outputs are null or empty. It fails when there are several outputs. With the single output `o`, for `o` other than `START` (which registration guarantees), it resolves exactly as producing `o` does. |
| FsmProperties.PickDeclaredOutput | FSMLight/FSM.cs:303-309 | A non-sentinel id in the current outputs moves to `k` iff `k` is its unique acceptor. It fails iff there is no unique acceptor. |
| FsmProperties.PickUndeclaredOutput | FSMLight/FSM.cs:310 | A non-sentinel id not in the current outputs fails as unsupported, carrying that id. |
| FsmProperties.SharedInputFails | FSMLight/FSM.cs:305-307 | Two distinct states that accept the same id make producing it fail. |
| FsmProperties.StepFromUnstarted | FSMLight/FSM.cs:201-206 | The first step fails without a unique start state. Otherwise it equals a step from the start state. |
| FsmProperties.ResetRestarts | FSMLight/FSM.cs:184-188 | After `Reset`, the next step behaves as a step from the start state, and it runs the start state's handler. |
| FsmProperties.StepFinishes | FSMLight/FSM.cs:282-291 | A stop state that returns `FINISHED` or `DEFAULT` stops the machine in place, and the step returns false. The step after that returns false and runs no handler. |
| FsmProperties.StepMoves | FSMLight/FSM.cs:303-308 | A declared non-sentinel id moves the machine to `k`, with the step returning true, iff `k` is the id's unique acceptor. Otherwise the step fails. |
| FsmProperties.StepDefaultIsOnlyOutput | FSMLight/FSM.cs:292-301 | From a state with exactly one output `o`, for `o` other than `START` (which registration guarantees), a step producing `DEFAULT` equals a step producing `o`. |
| FsmProperties.StepFinishedWithOutputs | FSMLight/FSM.cs:240-246 | In a registered machine, `FINISHED` from a state with outputs fails as an unsupported id, because no output can be negative. |
| FsmProperties.TwoStatesRegistered | FSMLight/FSM.cs:247-255 | Registering A (no inputs, output 1) and then B (input 1, empty outputs) yields exactly those two states, in that order. |
| FsmProperties.TwoStateRun | FSMLight/FSM.cs:194-209 | With states A and B: step 1 runs A and moves to B. Step 2 runs B, which stops. Step 3 returns false and runs nothing. |
| MachineSets.Empty | FSMLight/MachineSet.cs:13-16 | A new set holds no machine. Enumerating it yields nothing, and removing from it changes nothing. The first `Add` makes that machine the only member. |
| MachineSets.Add | FSMLight/MachineSet.cs:29-38 | The result holds the old members plus `h`, as an order-preserving extension by at most one. It never creates a duplicate. |
| MachineSets.AddIdempotent | FSMLight/MachineSet.cs:35-36 | Adding a machine that is already present changes nothing. So adding a machine twice is the same as adding it once. |
| MachineSets.RemoveFirst | FSMLight/MachineSet.cs:46 | List removal deletes one occurrence of `h`, if any. It keeps every other element and changes nothing when `h` is absent. |
| MachineSets.RemoveFirstCutsFirstOccurrence | FSMLight/MachineSet.cs:46 | The removed occurrence is the first one. The rest keeps its order. |
| MachineSets.NoDupRemove | FSMLight/MachineSet.cs:44-47 | On a duplicate-free list, the removed machine is gone entirely and no duplicate appears. |
| MachineSets.Remove | FSMLight/MachineSet.cs:40-49 | `Remove` is a no-op when the machine is absent, including on an empty set. Otherwise it cuts out the first occurrence and keeps the order of the rest. On a duplicate-free set the machine is gone. |
| MachineSets.KeepRunning | FSMLight/MachineSet.cs:57 | The result holds exactly the listed machines that are not stopped. No duplicate appears. |
| MachineSets.KeepRunningAppend | FSMLight/MachineSet.cs:55-58 | Pruning distributes over concatenation, so the survivors keep their original relative order. |
| MachineSets.KeepRunningIdempotent | FSMLight/MachineSet.cs:57 | Pruning twice is pruning once. |
| MachineSets.RemoveAllStopped | FSMLight/MachineSet.cs:51-60 | Leaves exactly the machines that are not stopped, with no duplicate introduced. |
| MachineSets.StepEach | FSMLight/MachineSet.cs:71-79 | Stepping the listed machines keeps the heap's domain and every machine's validity. Machines not listed are untouched. |
| MachineSets.SingleStepAll | FSMLight/MachineSet.cs:62-83 | An empty set returns false and changes nothing. Unlisted machines are untouched. |
| MachineSets.StepEachOkIff | FSMLight/MachineSet.cs:71-79 | With no duplicates, stepping all succeeds iff every machine's own step, from its prior state, succeeds. |
| MachineSets.StepEachStepsEachOnce | FSMLight/MachineSet.cs:71-79 | With no duplicates, each machine ends in the state its single step leads to. Every machine is stepped, with no short-circuit. |
| MachineSets.StepEachMore | FSMLight/MachineSet.cs:74-78 | The combined result is true iff at least one machine's step returned true. |
| MachineSets.EnumerationIsInsertionOrder | FSMLight/MachineSet.cs:85-97 | Adding distinct machines one by one enumerates them in the order they were added, after the earlier members. |
| MachineSets.EnumerateFromEmpty | FSMLight/MachineSet.cs:85-97 | Enumerating a new set after adding distinct machines yields exactly those machines, in the order they were added. |

## Left out

- Fsm.Construct: assumes every attributed public method has the signature `int()`. For any other signature, the source's delegate creation throws an `ArgumentException` before registration (FSMLight/FSM.cs:153). A `Declaration` carries no signature, so this failure is not modelled.
- Reflective discovery of handler methods and delegate creation in the `FSM()` constructor (FSMLight/FSM.cs:140-157). `Construct` takes the `Declaration` of every public instance method instead, in the order reflection lists them, and registers the attributed ones. That order itself is not modelled; resolution never depends on list order, because any ambiguity fails.
- Handler bodies and their side effects. The produced id is an input of `Step`, and the per-machine ids of `SingleStepAll` are a `produced` sequence.
- The state of a machine after a failed step. `Step` returns `Err` and makes no claim. The source can leave the start state selected after a failed first step.
- `SingleStepAll`: when a machine throws part-way through, the model returns `Err` without the partly stepped heap. The source has already stepped the earlier machines at that point.
- The `lock(syncobj)` mutual exclusion and the lazily created static `Default` instance in MachineSet.cs. These are concurrency and global state.
- The difference between a null list and an empty list. For `machines`, every operation treats the two alike, so both are the empty sequence. `_states` is the empty sequence too, but the source treats null and empty alike only in `SingleStep` (FSMLight/FSM.cs:198). `_states` stays null when the constructor finds no attributed method (FSMLight/FSM.cs:141, 247-248). The `States` getter then returns null (FSMLight/FSM.cs:162-168), and enumerating it throws. The model's `Machine.states` is `[]` there.
- An explicit `SetInputs(null)`/`SetOutputs(null)` call. The model covers it as `SetIns(s, None)`/`SetOuts(s, None)`.
- An `Inputs(null)` or `Outputs(null)` attribute. Its transition list is null, and `AddMethod` then throws a null-reference exception while checking the ids (FSMLight/FSM.cs:235, 243). A `Declaration` holds sequences, which cannot be null, so this failure is not modelled.
- `Add(null)`. The source stores the null reference (FSMLight/MachineSet.cs:35-36), and a later `RemoveAllStopped` or `SingleStepAll` dereferences it (FSMLight/MachineSet.cs:57, 74). A `Handle` always names a machine in the `Heap`, so this failure is not modelled.
- Exception message strings. Errors are distinguished by kind only.
- The commented-out example machine at the top of FSM.cs, which uses random numbers and console output.
- FSMDemo/FSMDemo/FSMLight/CustomAttributes.cs, which only holds attribute data. An attribute's transition list is an element of `Declaration.insDecls`/`outsDecls`.
- FSMDemo/FSMDemo/FSMLight/IFSM.cs, a bare interface. Its members are reflected as `Reset`, `Step`, `IsStopped` and `Machine.states`. `Machine.states` is `[]` where the `States` getter would return null.
- The whole-run property "repeated stepping reaches a stop iff the graph has a path to a stop state". It depends on what the handlers return over time.
- MachineSets.StepEachOkIff: stated only for duplicate-free sets. `Add` never creates a duplicate (see `Add`, `Remove`, `RemoveAllStopped`).
- MachineSets.StepEachStepsEachOnce: stated only for duplicate-free sets, for the same reason.
- MachineSets.StepEachMore: stated only for duplicate-free sets, for the same reason.

=== FILE: fsm.dfy ===
/** The FSMLight stepping engine: registration of states, resolution of a
    produced transition id to the next state, and the single-step protocol.

    A machine's handlers are not modelled; the id the running handler returns
    is an input of `Step`, and `StepResult.ran` reports whose handler ran. */
module Fsm {
  import opened Wrappers
  import opened States

  /** Reserved transition ids. `START` is internal; handlers may return the
      other two. User transition ids are non-negative. */
  const START: int := -1
  const FINISHED: int := -2
  const DEFAULT: int := -3

  /** Why registration rejects a state. */
  datatype ConfigError =
    | NoDeclaration       // neither an Inputs nor an Outputs attribute
    | MultipleInputs      // more than one Inputs attribute
    | MultipleOutputs     // more than one Outputs attribute
    | NegativeInput       // a declared input id below zero
    | NegativeOutput      // a declared output id below zero

  /** Why a step fails. */
  datatype FsmError =
    | NoStates
    | NoUniqueStart
    | MustStartAtStart
    | DefaultAmbiguous
    | InputNotUniquelyMapped
    | UnsupportedOutput(id: int)

  predicate AllNonNegative(ids: seq<int>) {
    forall i :: 0 <= i < |ids| ==> ids[i] >= 0
  }

  /** The array an attribute list contributes: the single attribute's
      transitions, or null when there is no attribute. */
  function Declared(decls: seq<seq<int>>): (r: Option<seq<int>>) {
    if |decls| == 0 then None else Some(decls[0])
  }

  /** One handler's attributes: the transition list of each of its Inputs
      attributes and of each of its Outputs attributes. */
  datatype Declaration = Declaration(insDecls: seq<seq<int>>, outsDecls: seq<seq<int>>)

  /** The state registration stores for an accepted declaration: each array
      is the single attribute's list, or null without one, and both have been
      assigned. */
  function Stored(d: Declaration): (r: State) {
    State(Declared(d.insDecls), Declared(d.outsDecls), true, true)
  }

  /** Registration of one handler. Each element of `insDecls` (`outsDecls`) is
      the transition list of one Inputs (Outputs) attribute on the handler. */
  function Register(states: seq<State>, insDecls: seq<seq<int>>, outsDecls: seq<seq<int>>): (r: Result<seq<State>, ConfigError>)
    ensures r.Ok? <==>
      && (|insDecls| > 0 || |outsDecls| > 0)
      && |insDecls| <= 1 && |outsDecls| <= 1
      && (forall d :: d in insDecls ==> AllNonNegative(d))
      && (forall d :: d in outsDecls ==> AllNonNegative(d))
    ensures |insDecls| == 0 && |outsDecls| == 0 ==> r == Err(NoDeclaration)
    ensures |insDecls| > 1 ==> r == Err(MultipleInputs)
    ensures |insDecls| <= 1 && |outsDecls| > 1 ==> r == Err(MultipleOutputs)
    ensures |insDecls| == 1 && |outsDecls| <= 1 && !AllNonNegative(insDecls[0]) ==> r == Err(NegativeInput)
    ensures r == Err(NegativeOutput) <==>
      && |outsDecls| == 1 && !AllNonNegative(outsDecls[0])
      && |insDecls| <= 1 && (|insDecls| == 1 ==> AllNonNegative(insDecls[0]))
    ensures r.Ok? ==> |r.value| == |states| + 1 && r.value[..|states|] == states
    ensures r.Ok? ==>
      var s := r.value[|states|];
      && (s.ins.None? <==> |insDecls| == 0) && (s.ins.Some? ==> s.ins.value == insDecls[0])
      && (s.outs.None? <==> |outsDecls| == 0) && (s.outs.Some? ==> s.outs.value == outsDecls[0])
      && s.inputSet && s.outputSet && StateWellFormed(s)
    ensures r.Ok? ==> r.value[|states|] == Stored(Declaration(insDecls, outsDecls))
  {
    if |insDecls| == 0 && |outsDecls| == 0 then Err(NoDeclaration)
    else if |insDecls| > 1 then Err(MultipleInputs)
    else if |outsDecls| > 1 then Err(MultipleOutputs)
    else if |insDecls| == 1 && !AllNonNegative(insDecls[0]) then Err(NegativeInput)
    else if |outsDecls| == 1 && !AllNonNegative(outsDecls[0]) then Err(NegativeOutput)
    else
      var withIns := SetIns(Fresh(), Declared(insDecls)).value;
      var s := SetOuts(withIns, Declared(outsDecls)).value;
      Ok(states + [s])
  }

  /** A state every id of which is a legal user transition id. */
  predicate StateWellFormed(s: State) {
    && (s.ins.Some? ==> AllNonNegative(s.ins.value))
    && (s.outs.Some? ==> AllNonNegative(s.outs.value))
  }

  predicate WellFormed(states: seq<State>) {
    forall i :: 0 <= i < |states| ==> StateWellFormed(states[i])
  }

  /** Registration accepts the declaration. */
  predicate Acceptable(d: Declaration) {
    Register([], d.insDecls, d.outsDecls).Ok?
  }

  /** The states registration stores for `decls`, in order. */
  function StoredAll(decls: seq<Declaration>): (r: seq<State>) {
    seq(|decls|, i requires 0 <= i < |decls| => Stored(decls[i]))
  }

  /** Registers each declaration in turn; the first rejection aborts with
      that declaration's error. */
  function RegisterAll(states: seq<State>, decls: seq<Declaration>): (r: Result<seq<State>, ConfigError>)
    ensures r.Ok? <==> forall i :: 0 <= i < |decls| ==> Acceptable(decls[i])
    ensures r.Ok? ==> r.value == states + StoredAll(decls)
    ensures r.Ok? && WellFormed(states) ==> WellFormed(r.value)
    decreases |decls|
  {
    if |decls| == 0 then Ok(states)
    else
      var first := Register(states, decls[0].insDecls, decls[0].outsDecls);
      if first.Err? then Err(first.error)
      else
        var next := first.value;
        assert next == states + [Stored(decls[0])] by {
          assert next[..|states|] == states;
        }
        assert forall i :: 1 <= i < |decls| ==> decls[i] == decls[1..][i - 1];
        var r := RegisterAll(next, decls[1..]);
        assert r.Ok? ==> StoredAll(decls) == [Stored(decls[0])] + StoredAll(decls[1..]);
        r
  }

  /** A rejected list fails with the error of its first rejected declaration;
      where every declaration has an attribute, that error is never
      `NoDeclaration`. */
  lemma {:induction false} RegisterAllRejects(states: seq<State>, decls: seq<Declaration>, i: nat)
    requires i < |decls| && !Acceptable(decls[i])
    requires forall j :: 0 <= j < i ==> Acceptable(decls[j])
    ensures RegisterAll(states, decls) == Err(Register([], decls[i].insDecls, decls[i].outsDecls).error)
    decreases i
  {
    if i > 0 {
      var next := Register(states, decls[0].insDecls, decls[0].outsDecls).value;
      assert forall j :: 0 <= j < i - 1 ==> decls[1..][j] == decls[j + 1];
      RegisterAllRejects(next, decls[1..], i - 1);
    }
  }

  /** One method: kept iff it has an attribute. */
  lemma ScannedSingle(d: Declaration)
    ensures Scanned([d]) == if Attributed(d) then [d] else []
  {
    assert [d][1..] == [];
  }

  /** Scanning a concatenation scans each part: every attributed declaration
      is kept, as often as it occurs and in scan order. */
  lemma {:induction false} ScannedAppend(a: seq<Declaration>, b: seq<Declaration>)
    ensures Scanned(a + b) == Scanned(a) + Scanned(b)
    decreases |a|
  {
    if |a| > 0 {
      assert (a + b)[0] == a[0];
      assert (a + b)[1..] == a[1..] + b;
      ScannedAppend(a[1..], b);
    } else {
      assert a + b == b;
    }
  }

  /** Registering declarations that all carry an attribute never fails with
      `NoDeclaration`. */
  lemma {:induction false} RegisterAllAttributed(states: seq<State>, decls: seq<Declaration>)
    requires forall i :: 0 <= i < |decls| ==> Attributed(decls[i])
    ensures RegisterAll(states, decls).Err? ==> RegisterAll(states, decls).error != NoDeclaration
    decreases |decls|
  {
    if |decls| > 0 {
      var first := Register(states, decls[0].insDecls, decls[0].outsDecls);
      if first.Ok? {
        assert forall i :: 0 <= i < |decls| - 1 ==> decls[1..][i] == decls[i + 1];
        RegisterAllAttributed(first.value, decls[1..]);
      }
    }
  }

  /** The scan keeps exactly the attributed declarations, so its list is
      acceptable iff every attributed declaration is. */
  lemma ScannedAcceptable(decls: seq<Declaration>)
    ensures forall i :: 0 <= i < |Scanned(decls)| ==> Attributed(Scanned(decls)[i])
    ensures (forall i :: 0 <= i < |Scanned(decls)| ==> Acceptable(Scanned(decls)[i])) <==>
        (forall i :: 0 <= i < |decls| && Attributed(decls[i]) ==> Acceptable(decls[i]))
  {
    var ds := Scanned(decls);
    forall i | 0 <= i < |ds| ensures Attributed(ds[i]) && exists j :: 0 <= j < |decls| && decls[j] == ds[i] {
      assert ds[i] in ds;
    }
    forall i | 0 <= i < |decls| && Attributed(decls[i]) ensures exists j :: 0 <= j < |ds| && ds[j] == decls[i] {
      assert decls[i] in ds;
    }
  }

  /** The constructor registers only the methods carrying at least one Inputs
      or Outputs attribute; every other public method is skipped. */
  predicate Attributed(d: Declaration) {
    |d.insDecls| > 0 || |d.outsDecls| > 0
  }

  /** The handlers the constructor's scan registers, in scan order. */
  function Scanned(decls: seq<Declaration>): (r: seq<Declaration>)
    ensures forall d :: d in r <==> d in decls && Attributed(d)
    ensures |r| <= |decls|
    ensures (forall i :: 0 <= i < |decls| ==> Attributed(decls[i])) ==> r == decls
  {
    if |decls| == 0 then []
    else
      var rest := Scanned(decls[1..]);
      assert forall d :: d in decls[1..] ==> d in decls;
      assert forall d :: d in decls ==> d == decls[0] || d in decls[1..];
      if Attributed(decls[0]) then [decls[0]] + rest else rest
  }

  /** The machine the constructor builds from the declarations of all public
      methods: every attributed one registered in order, no state selected,
      not stopped. Since an unattributed method is skipped, construction never
      fails with `NoDeclaration`. */
  function Construct(decls: seq<Declaration>): (r: Result<Machine, ConfigError>)
    ensures r.Ok? <==> forall i :: 0 <= i < |decls| && Attributed(decls[i]) ==> Acceptable(decls[i])
    ensures r.Err? ==> r.error != NoDeclaration
    ensures r.Ok? ==> |r.value.states| == |Scanned(decls)| && WellFormed(r.value.states)
    ensures r.Ok? ==> forall i :: 0 <= i < |Scanned(decls)| ==> r.value.states[i] == Stored(Scanned(decls)[i])
    ensures r.Ok? ==> r.value.cur.None? && !r.value.stopped
  {
    var ds := Scanned(decls);
    ScannedAcceptable(decls);
    RegisterAllAttributed([], ds);
    var states :- RegisterAll([], ds);
    Ok(Machine(states, None, false))
  }

  /** A null and an empty output array mean the same: a stop state. */
  predicate NoOutputs(outs: Option<seq<int>>) {
    outs.None? || |outs.value| == 0
  }

  /** The two searches resolution performs over the state list. */
  datatype Criterion = NoInputs | AcceptsInput(id: int)

  predicate Meets(s: State, c: Criterion) {
    match c
    case NoInputs => s.ins.None?
    case AcceptsInput(id) => s.ins.Some? && id in s.ins.value
  }

  /** The positions of the states meeting `c`, in list order. */
  function IndicesWhere(states: seq<State>, c: Criterion): (r: seq<nat>)
    ensures forall i: nat :: i in r <==> i < |states| && Meets(states[i], c)
    ensures forall a :: 0 <= a < |r| ==> r[a] < |states|
    ensures forall a, b :: 0 <= a < b < |r| ==> r[a] < r[b]
  {
    if |states| == 0 then []
    else
      var pre := IndicesWhere(states[..|states| - 1], c);
      if Meets(states[|states| - 1], c) then pre + [|states| - 1] else pre
  }

  /** `k` is the one and only state meeting `c`. */
  predicate UniqueWhere(states: seq<State>, c: Criterion, k: nat) {
    && k < |states| && Meets(states[k], c)
    && forall j :: 0 <= j < |states| && Meets(states[j], c) ==> j == k
  }

  ghost predicate HasUnique(states: seq<State>, c: Criterion) {
    exists k: nat :: UniqueWhere(states, c, k)
  }

  /** Selection of the unique state with null inputs. */
  function PickStart(states: seq<State>): (r: Result<nat, FsmError>)
    ensures r.Ok? ==> r.value < |states|
    ensures r.Err? ==> r.error == NoUniqueStart
  {
    var starts := IndicesWhere(states, NoInputs);
    if |starts| != 1 then Err(NoUniqueStart) else Ok(starts[0])
  }

  /** Selection of the unique state accepting input `id`. */
  function Follow(states: seq<State>, id: int): (r: Result<nat, FsmError>)
    ensures r.Ok? ==> r.value < |states|
    ensures r.Err? ==> r.error == InputNotUniquelyMapped
  {
    var holders := IndicesWhere(states, AcceptsInput(id));
    if |holders| != 1 then Err(InputNotUniquelyMapped) else Ok(holders[0])
  }

  /** What a successful resolution does: select a state, or stop. */
  datatype Resolution = MoveTo(next: nat) | Stop

  predicate ValidCursor(states: seq<State>, cur: Option<nat>) {
    cur.Some? ==> cur.value < |states|
  }

  /** Resolution of `id` from the current state `cur` (`None`: no state yet). */
  function Pick(states: seq<State>, cur: Option<nat>, id: int): (r: Result<Resolution, FsmError>)
    requires ValidCursor(states, cur)
    ensures r.Ok? && r.value.MoveTo? ==> r.value.next < |states|
    ensures id == START && r.Ok? ==> r.value.MoveTo?
    ensures r.Ok? && r.value.Stop? ==> cur.Some? && NoOutputs(states[cur.value].outs)
  {
    if id == START then
      var k :- PickStart(states);
      Ok(MoveTo(k))
    else if cur.None? then
      Err(MustStartAtStart)
    else
      var outs := states[cur.value].outs;
      if id == FINISHED && NoOutputs(outs) then
        Ok(Stop)
      else if id == DEFAULT then
        if NoOutputs(outs) then Ok(Stop)
        else if |outs.value| != 1 then Err(DefaultAmbiguous)
        else
          var k :- Follow(states, outs.value[0]);
          Ok(MoveTo(k))
      else if outs.Some? && id in outs.value then
        var k :- Follow(states, id);
        Ok(MoveTo(k))
      else
        Err(UnsupportedOutput(id))
  }

  /** `cur == None`: unstarted (or reset). `stopped`: a stop state has run. */
  datatype Machine = Machine(states: seq<State>, cur: Option<nat>, stopped: bool)

  predicate Valid(m: Machine) {
    ValidCursor(m.states, m.cur)
  }

  /** The outcome of one successful step: the machine after it, the value
      `SingleStep` returns, and whose handler ran (`None`: none did). */
  datatype StepResult = StepResult(next: Machine, more: bool, ran: Option<nat>)

  /** The `Stopped` property. */
  function IsStopped(m: Machine): (r: bool) {
    m.stopped
  }

  /** Clears both the position and the stopped flag. */
  function Reset(m: Machine): (r: Machine)
    ensures Valid(r) && r.cur.None? && !IsStopped(r) && r.states == m.states
  {
    m.(cur := None, stopped := false)
  }

  /** `SingleStep`: the state whose handler runs returns `produced`. */
  function Step(m: Machine, produced: int): (r: Result<StepResult, FsmError>)
    requires Valid(m)
    ensures m.stopped ==> r == Ok(StepResult(m, false, None))
    ensures !m.stopped && |m.states| == 0 ==> r == Err(NoStates)
    ensures r.Ok? ==> Valid(r.value.next) && r.value.next.states == m.states
    ensures r.Ok? ==> r.value.more == !IsStopped(r.value.next)
    ensures r.Ok? && !m.stopped ==> r.value.ran.Some? && r.value.ran.value < |m.states|
    ensures r.Ok? && !m.stopped && m.cur.Some? ==> r.value.ran == m.cur
    ensures r.Ok? && !m.stopped && r.value.next.stopped ==>
      r.value.next.cur == r.value.ran && NoOutputs(m.states[r.value.ran.value].outs)
  {
    if m.stopped then Ok(StepResult(m, false, None))
    else if |m.states| == 0 then Err(NoStates)
    else
      var c :- if m.cur.Some? then Ok(m.cur.value) else PickStart(m.states);
      var res :- Pick(m.states, Some(c), produced);
      var next := match res
        case MoveTo(k) => m.(cur := Some(k))
        case Stop => m.(cur := Some(c), stopped := true);
      Ok(StepResult(next, !next.stopped, Some(c)))
  }
}

=== FILE: fsm_properties.dfy ===
/** Properties of registration, resolution and stepping, stated against
    independent definitions: `UniqueWhere` for "exactly one state qualifies",
    `NoOutputs` for a stop state, and the machine record before and after. */
module FsmProperties {
  import opened Wrappers
  import opened States
  import opened Fsm

  /** The selection is the singleton `[k]` exactly when `k` is the only state
      meeting the criterion. */
  lemma {:induction false} SingletonIffUnique(states: seq<State>, c: Criterion, k: nat)
    ensures IndicesWhere(states, c) == [k] <==> UniqueWhere(states, c, k)
  {
    var r := IndicesWhere(states, c);
    if r == [k] {
      assert k in r;
      forall j | 0 <= j < |states| && Meets(states[j], c)
        ensures j == k
      {
        assert j in r;
      }
    }
    if UniqueWhere(states, c, k) {
      assert k in r;
      forall a | 0 <= a < |r|
        ensures r[a] == k
      {
        assert r[a] in r;
      }
      assert r[0] == k;
      assert r[|r| - 1] == k;
      assert r == [k];
    }
  }

  /** A selection has one element exactly when one state qualifies. */
  lemma SelectionIsUnique(states: seq<State>, c: Criterion)
    ensures |IndicesWhere(states, c)| == 1 <==> HasUnique(states, c)
    ensures |IndicesWhere(states, c)| == 1 ==> UniqueWhere(states, c, IndicesWhere(states, c)[0])
  {
    var r := IndicesWhere(states, c);
    if |r| == 1 {
      assert r == [r[0]];
      SingletonIffUnique(states, c, r[0]);
    }
    if HasUnique(states, c) {
      var k: nat :| UniqueWhere(states, c, k);
      SingletonIffUnique(states, c, k);
    }
  }

  /** Start selection finds the unique state with null inputs, and fails when
      there are none or several. */
  lemma PickStartSpec(states: seq<State>, k: nat)
    ensures PickStart(states) == Ok(k) <==> UniqueWhere(states, NoInputs, k)
    ensures PickStart(states) == Err(NoUniqueStart) <==> !HasUnique(states, NoInputs)
  {
    SelectionIsUnique(states, NoInputs);
    SingletonIffUnique(states, NoInputs, k);
  }

  /** Following an id finds the unique state accepting it as an input; no
      acceptor and several acceptors fail alike. */
  lemma FollowSpec(states: seq<State>, id: int, k: nat)
    ensures Follow(states, id) == Ok(k) <==> UniqueWhere(states, AcceptsInput(id), k)
    ensures Follow(states, id) == Err(InputNotUniquelyMapped) <==> !HasUnique(states, AcceptsInput(id))
  {
    SelectionIsUnique(states, AcceptsInput(id));
    SingletonIffUnique(states, AcceptsInput(id), k);
  }

  /** Resolving `START` selects the unique start state, whatever the current
      state is: a handler that returns `START` re-selects the start state. */
  lemma PickStartResolution(states: seq<State>, cur: Option<nat>, k: nat)
    requires ValidCursor(states, cur)
    ensures Pick(states, cur, START) == Ok(MoveTo(k)) <==> UniqueWhere(states, NoInputs, k)
    ensures Pick(states, cur, START) == Err(NoUniqueStart) <==> !HasUnique(states, NoInputs)
    ensures Pick(states, cur, START).Ok? || Pick(states, cur, START) == Err(NoUniqueStart)
  {
    PickStartSpec(states, k);
  }

  /** Before a state is selected, only `START` resolves. */
  lemma PickBeforeStart(states: seq<State>, id: int)
    requires id != START
    ensures Pick(states, None, id) == Err(MustStartAtStart)
  {
  }

  /** `FINISHED` stops a stop state and leaves the position alone; from a
      registered state with outputs it is an unsupported id, since no declared
      output can be negative. */
  lemma PickFinished(states: seq<State>, c: nat)
    requires c < |states|
    ensures NoOutputs(states[c].outs) ==> Pick(states, Some(c), FINISHED) == Ok(Stop)
    ensures !NoOutputs(states[c].outs) && StateWellFormed(states[c]) ==>
      Pick(states, Some(c), FINISHED) == Err(UnsupportedOutput(FINISHED))
  {
  }

  /** `DEFAULT` stops a stop state, is ambiguous with several outputs, and with
      a single output `o` resolves exactly as producing `o` does. */
  lemma PickDefault(states: seq<State>, c: nat, o: int)
    requires c < |states|
    ensures NoOutputs(states[c].outs) ==> Pick(states, Some(c), DEFAULT) == Ok(Stop)
    ensures !NoOutputs(states[c].outs) && |states[c].outs.value| > 1 ==>
      Pick(states, Some(c), DEFAULT) == Err(DefaultAmbiguous)
    ensures states[c].outs == Some([o]) && o != START ==>
      Pick(states, Some(c), DEFAULT) == Pick(states, Some(c), o)
  {
  }

  /** Any id other than a sentinel. */
  predicate NotSentinel(id: int) {
    id != START && id != FINISHED && id != DEFAULT
  }

  /** A user id the current state declares as an output moves to the unique
      state accepting it; zero or several acceptors fail alike. */
  lemma PickDeclaredOutput(states: seq<State>, c: nat, id: int, k: nat)
    requires c < |states| && NotSentinel(id)
    requires states[c].outs.Some? && id in states[c].outs.value
    ensures Pick(states, Some(c), id) == Ok(MoveTo(k)) <==> UniqueWhere(states, AcceptsInput(id), k)
    ensures Pick(states, Some(c), id) == Err(InputNotUniquelyMapped) <==> !HasUnique(states, AcceptsInput(id))
  {
    FollowSpec(states, id, k);
  }

  /** A user id the current state does not declare is unsupported. */
  lemma PickUndeclaredOutput(states: seq<State>, c: nat, id: int)
    requires c < |states| && NotSentinel(id)
    requires !(states[c].outs.Some? && id in states[c].outs.value)
    ensures Pick(states, Some(c), id) == Err(UnsupportedOutput(id))
  {
  }

  /** Two states accepting the same id make that id unresolvable. */
  lemma SharedInputFails(states: seq<State>, c: nat, id: int, i: nat, j: nat)
    requires c < |states| && NotSentinel(id)
    requires states[c].outs.Some? && id in states[c].outs.value
    requires i < |states| && j < |states| && i != j
    requires Meets(states[i], AcceptsInput(id)) && Meets(states[j], AcceptsInput(id))
    ensures Pick(states, Some(c), id) == Err(InputNotUniquelyMapped)
  {
    PickDeclaredOutput(states, c, id, i);
    assert !HasUnique(states, AcceptsInput(id));
  }

  /** The first step of an unstarted machine selects the start state and then
      behaves as a step from it; without a unique start state it fails. */
  lemma StepFromUnstarted(m: Machine, p: int, k: nat)
    requires Valid(m) && !m.stopped && m.cur.None? && |m.states| > 0
    ensures !HasUnique(m.states, NoInputs) ==> Step(m, p) == Err(NoUniqueStart)
    ensures UniqueWhere(m.states, NoInputs, k) ==> Step(m, p) == Step(m.(cur := Some(k)), p)
  {
    PickStartSpec(m.states, k);
  }

  /** `Stopped` holds exactly when a step is a no-op that runs no handler. */
  lemma StoppedIffIdle(m: Machine, p: int)
    requires Valid(m)
    ensures IsStopped(m) <==> Step(m, p) == Ok(StepResult(m, false, None))
    ensures IsStopped(m) <==> Step(m, p).Ok? && Step(m, p).value.ran.None?
  {
  }

  /** `Reset` returns any machine to the unstarted phase: the next step runs
      the start state's handler. */
  lemma ResetRestarts(m: Machine, p: int, k: nat)
    requires |m.states| > 0 && UniqueWhere(m.states, NoInputs, k)
    ensures Step(Reset(m), p) == Step(Machine(m.states, Some(k), false), p)
    ensures Step(Reset(m), p).Ok? ==> Step(Reset(m), p).value.ran == Some(k)
  {
    StepFromUnstarted(Reset(m), p, k);
  }

  /** A stop state returning `FINISHED` or `DEFAULT` stops the machine in
      place; the next step returns false and runs no handler. */
  lemma StepFinishes(m: Machine, p: int, q: int)
    requires Valid(m) && !m.stopped && m.cur.Some?
    requires NoOutputs(m.states[m.cur.value].outs)
    requires p == FINISHED || p == DEFAULT
    ensures Step(m, p) == Ok(StepResult(m.(stopped := true), false, m.cur))
    ensures Step(m.(stopped := true), q) == Ok(StepResult(m.(stopped := true), false, None))
  {
  }

  /** A declared user id moves a running machine to the unique acceptor, and
      the step reports more work; without a unique acceptor the step fails. */
  lemma StepMoves(m: Machine, p: int, k: nat)
    requires Valid(m) && !m.stopped && m.cur.Some? && NotSentinel(p)
    requires m.states[m.cur.value].outs.Some? && p in m.states[m.cur.value].outs.value
    ensures Step(m, p) == Ok(StepResult(m.(cur := Some(k)), true, m.cur))
        <==> UniqueWhere(m.states, AcceptsInput(p), k)
    ensures Step(m, p) == Err(InputNotUniquelyMapped) <==> !HasUnique(m.states, AcceptsInput(p))
  {
    PickDeclaredOutput(m.states, m.cur.value, p, k);
  }

  /** From a state with one output `o`, producing `DEFAULT` is producing `o`. */
  lemma StepDefaultIsOnlyOutput(m: Machine, o: int)
    requires Valid(m) && !m.stopped && m.cur.Some?
    requires m.states[m.cur.value].outs == Some([o]) && o != START
    ensures Step(m, DEFAULT) == Step(m, o)
  {
    PickDefault(m.states, m.cur.value, o);
  }

  /** In a machine built by registration, `FINISHED` from a state with
      outputs fails as an unsupported id. */
  lemma StepFinishedWithOutputs(m: Machine)
    requires Valid(m) && !m.stopped && m.cur.Some? && WellFormed(m.states)
    requires !NoOutputs(m.states[m.cur.value].outs)
    ensures Step(m, FINISHED) == Err(UnsupportedOutput(FINISHED))
  {
    PickFinished(m.states, m.cur.value);
  }

  /** The two-state example: A has no inputs and output 1; B has input 1
      and an empty output list. */
  function TwoStates(): (r: seq<State>) {
    [State(None, Some([1]), true, true), State(Some([1]), Some([]), true, true)]
  }

  /** Registering A and then B yields the two-state example. */
  lemma TwoStatesRegistered()
    ensures Register([], [], [[1]]) == Ok(TwoStates()[..1])
    ensures Register(TwoStates()[..1], [[1]], [[]]) == Ok(TwoStates())
  {
    var a := State(None, Some([1]), true, true);
    var b := State(Some([1]), Some([]), true, true);
    assert AllNonNegative([1]) && AllNonNegative([]);
    assert TwoStates()[..1] == [a] == [] + [a];
    assert Register([], [], [[1]]) == Ok([] + [a]);
    assert TwoStates() == [a] + [b];
    assert Register([a], [[1]], [[]]) == Ok([a] + [b]);
  }

  /** A public method without attributes is skipped by construction: a
      handler with output 1 next to a bare method yields a one-state machine. */
  lemma ConstructSkipsUnattributed()
    ensures Construct([Declaration([], [[1]]), Declaration([], [])]) ==
      Ok(Machine([State(None, Some([1]), true, true)], None, false))
  {
    var decls := [Declaration([], [[1]]), Declaration([], [])];
    assert Scanned(decls[1..]) == [];
    assert Scanned(decls) == [decls[0]];
    assert Acceptable(decls[0]);
  }

  /** The two-state walk-through. The first step runs A and moves to B; the
      second runs B, which finishes; the third returns false and runs nothing. */
  lemma TwoStateRun()
    ensures
      var m0 := Machine(TwoStates(), None, false);
      var m1 := Machine(TwoStates(), Some(1), false);
      var m2 := Machine(TwoStates(), Some(1), true);
      && Step(m0, 1) == Ok(StepResult(m1, true, Some(0)))
      && Step(m1, FINISHED) == Ok(StepResult(m2, false, Some(1)))
      && Step(m2, 1) == Ok(StepResult(m2, false, None))
  {
    var ss := TwoStates();
    assert UniqueWhere(ss, NoInputs, 0);
    assert UniqueWhere(ss, AcceptsInput(1), 1);
    PickStartSpec(ss, 0);
    FollowSpec(ss, 1, 1);
  }
}

=== FILE: machine_sets.dfy ===
/** `FiniteStateMachineSet`: an ordered collection of machines that can be
    stepped together and pruned of stopped machines.

    The set compares machines by reference, so it holds `Handle`s; the machines
    they refer to live in a `Heap`. The lock around each operation and the
    shared default instance are not modelled. */
module MachineSets {
  import opened Wrappers
  import opened Fsm

  /** A machine's identity. */
  type Handle = nat

  /** The machine each handle refers to. */
  type Heap = map<Handle, Machine>

  /** The held machines in insertion order. A list that was never created is
      the empty sequence: every operation treats the two alike. */
  datatype MachineSet = MachineSet(members: seq<Handle>)

  /** A new set holds no machine: enumeration yields nothing, removal changes
      nothing, and the first `Add` makes `h` the only member. */
  function Empty(): (r: MachineSet)
    ensures Enumerate(r) == []
    ensures forall h: Handle :: Remove(r, h) == r && Add(r, h).members == [h]
  {
    MachineSet([])
  }

  predicate NoDup(hs: seq<Handle>) {
    forall i, j :: 0 <= i < j < |hs| ==> hs[i] != hs[j]
  }

  /** Appends `h` unless the set already holds it. */
  function Add(s: MachineSet, h: Handle): (r: MachineSet)
    ensures forall x :: x in r.members <==> x in s.members || x == h
    ensures |s.members| <= |r.members| <= |s.members| + 1 && r.members[..|s.members|] == s.members
    ensures NoDup(s.members) ==> NoDup(r.members)
  {
    if h in s.members then s else MachineSet(s.members + [h])
  }

  /** Adding a machine that is already held changes nothing; in particular,
      adding a machine twice is adding it once. */
  lemma AddIdempotent(s: MachineSet, h: Handle)
    ensures h in s.members ==> Add(s, h) == s
    ensures Add(Add(s, h), h) == Add(s, h)
  {
  }

  /** `List.Remove`: deletes the first occurrence of `h`, if any. */
  function RemoveFirst(hs: seq<Handle>, h: Handle): (r: seq<Handle>)
    ensures h !in hs ==> r == hs
    ensures h in hs ==> |r| == |hs| - 1
    ensures multiset(r) == multiset(hs) - multiset{h}
    ensures forall x :: x != h ==> (x in r <==> x in hs)
  {
    if |hs| == 0 then []
    else
      assert hs == [hs[0]] + hs[1..];
      if hs[0] == h then hs[1..]
      else [hs[0]] + RemoveFirst(hs[1..], h)
  }

  /** The first occurrence of `h` is cut out and the rest keeps its order. */
  lemma {:induction false} RemoveFirstCutsFirstOccurrence(hs: seq<Handle>, h: Handle, i: nat)
    requires i < |hs| && hs[i] == h && h !in hs[..i]
    ensures RemoveFirst(hs, h) == hs[..i] + hs[i + 1..]
  {
    assert hs == [hs[0]] + hs[1..];
    if i > 0 {
      assert hs[0] != h by { assert hs[0] == hs[..i][0]; }
      assert h !in hs[1..][..i - 1] by { assert hs[1..][..i - 1] == hs[1..i]; }
      RemoveFirstCutsFirstOccurrence(hs[1..], h, i - 1);
      assert hs[..i] == [hs[0]] + hs[1..][..i - 1];
      assert hs[i + 1..] == hs[1..][i..];
    }
  }

  /** `Remove`: on a duplicate-free set, exactly `h` is gone and the others
      stay in order; removing an absent machine (or from an empty set) is a
      no-op. */
  function Remove(s: MachineSet, h: Handle): (r: MachineSet)
    ensures h !in s.members ==> r == s
    ensures NoDup(s.members) ==> NoDup(r.members) && h !in r.members
    ensures forall x :: x != h ==> (x in r.members <==> x in s.members)
    ensures forall i: nat :: i < |s.members| && s.members[i] == h && h !in s.members[..i] ==>
      r.members == s.members[..i] + s.members[i + 1..]
  {
    var r := RemoveFirst(s.members, h);
    forall i: nat | i < |s.members| && s.members[i] == h && h !in s.members[..i]
      ensures r == s.members[..i] + s.members[i + 1..]
    {
      RemoveFirstCutsFirstOccurrence(s.members, h, i);
    }
    if NoDup(s.members) && h in s.members then
      NoDupRemove(s.members, h);
      MachineSet(r)
    else
      MachineSet(r)
  }

  /** Cutting the first occurrence out of a duplicate-free list leaves a
      duplicate-free list without `h`. */
  lemma {:induction false} NoDupRemove(hs: seq<Handle>, h: Handle)
    requires NoDup(hs)
    ensures NoDup(RemoveFirst(hs, h)) && h !in RemoveFirst(hs, h)
  {
    if |hs| > 0 {
      assert NoDup(hs[1..]);
      if hs[0] == h {
        assert h !in hs[1..];
      } else {
        NoDupRemove(hs[1..], h);
        var rest := RemoveFirst(hs[1..], h);
        assert hs[0] !in rest by { assert hs[0] !in hs[1..]; }
      }
    }
  }

  /** The machines whose `Stopped` is false, in their original order. */
  function KeepRunning(hs: seq<Handle>, heap: Heap): (r: seq<Handle>)
    requires forall x :: x in hs ==> x in heap
    ensures forall x :: x in r <==> x in hs && !heap[x].stopped
    ensures |r| <= |hs|
    ensures NoDup(hs) ==> NoDup(r)
  {
    if |hs| == 0 then []
    else
      var rest := KeepRunning(hs[1..], heap);
      assert NoDup(hs) ==> NoDup(hs[1..]) && hs[0] !in hs[1..];
      if heap[hs[0]].stopped then rest else [hs[0]] + rest
  }

  /** Filtering a concatenation filters each part: the kept machines keep
      their relative order. */
  lemma {:induction false} KeepRunningAppend(a: seq<Handle>, b: seq<Handle>, heap: Heap)
    requires forall x :: x in a + b ==> x in heap
    ensures KeepRunning(a + b, heap) == KeepRunning(a, heap) + KeepRunning(b, heap)
  {
    if |a| > 0 {
      assert (a + b)[1..] == a[1..] + b;
      KeepRunningAppend(a[1..], b, heap);
    } else {
      assert a + b == b;
    }
  }

  /** Pruning twice prunes nothing more. */
  lemma {:induction false} KeepRunningIdempotent(hs: seq<Handle>, heap: Heap)
    requires forall x :: x in hs ==> x in heap
    ensures KeepRunning(KeepRunning(hs, heap), heap) == KeepRunning(hs, heap)
  {
    if |hs| > 0 {
      KeepRunningIdempotent(hs[1..], heap);
    }
  }

  /** `RemoveAllStopped`. */
  function RemoveAllStopped(s: MachineSet, heap: Heap): (r: MachineSet)
    requires forall x :: x in s.members ==> x in heap
    ensures forall x :: x in r.members <==> x in s.members && !heap[x].stopped
    ensures NoDup(s.members) ==> NoDup(r.members)
  {
    MachineSet(KeepRunning(s.members, heap))
  }

  predicate AllValid(heap: Heap) {
    forall h :: h in heap ==> Valid(heap[h])
  }

  /** The machines after stepping all, and whether any reported more work. */
  datatype StepAllResult = StepAllResult(heap: Heap, more: bool)

  /** Steps each listed machine once, in order, with the id its handler
      returns taken from `produced`; a failing step aborts the rest. */
  function StepEach(hs: seq<Handle>, heap: Heap, produced: seq<int>): (r: Result<StepAllResult, FsmError>)
    requires |produced| == |hs|
    requires forall x :: x in hs ==> x in heap
    requires AllValid(heap)
    ensures r.Ok? ==> r.value.heap.Keys == heap.Keys && AllValid(r.value.heap)
    ensures r.Ok? ==> forall x :: x in heap && x !in hs ==> r.value.heap[x] == heap[x]
    decreases |hs|
  {
    if |hs| == 0 then Ok(StepAllResult(heap, false))
    else
      var sr :- Step(heap[hs[0]], produced[0]);
      var rest :- StepEach(hs[1..], heap[hs[0] := sr.next], produced[1..]);
      Ok(StepAllResult(rest.heap, sr.more || rest.more))
  }

  /** `SingleStepAll`. */
  function SingleStepAll(s: MachineSet, heap: Heap, produced: seq<int>): (r: Result<StepAllResult, FsmError>)
    requires |produced| == |s.members|
    requires forall x :: x in s.members ==> x in heap
    requires AllValid(heap)
    ensures |s.members| == 0 ==> r == Ok(StepAllResult(heap, false))
    ensures r.Ok? ==> r.value.heap.Keys == heap.Keys && AllValid(r.value.heap)
    ensures r.Ok? ==> forall x :: x in heap && x !in s.members ==> r.value.heap[x] == heap[x]
  {
    StepEach(s.members, heap, produced)
  }

  /** The facts that let a property of the tail of a duplicate-free list,
      after its head was stepped, be read back on the whole list. */
  lemma TailShift(hs: seq<Handle>, heap: Heap, produced: seq<int>, next: Machine)
    requires |hs| > 0 && |produced| == |hs| && NoDup(hs)
    requires forall x :: x in hs ==> x in heap
    ensures NoDup(hs[1..]) && hs[0] !in hs[1..]
    ensures forall i :: 1 <= i < |hs| ==>
      hs[i] == hs[1..][i - 1] && produced[i] == produced[1..][i - 1] &&
      heap[hs[0] := next][hs[i]] == heap[hs[i]]
  {
    forall i | 1 <= i < |hs|
      ensures heap[hs[0] := next][hs[i]] == heap[hs[i]]
    {
      assert hs[i] != hs[0];
    }
  }

  /** Every listed machine steps without error. */
  predicate AllStepsOk(hs: seq<Handle>, heap: Heap, produced: seq<int>)
    requires |produced| == |hs|
    requires forall x :: x in hs ==> x in heap
    requires AllValid(heap)
  {
    forall i :: 0 <= i < |hs| ==> Step(heap[hs[i]], produced[i]).Ok?
  }

  /** With no machine held twice, stepping all succeeds iff the step of every
      machine, from the state it was in, succeeds. */
  lemma {:induction false} StepEachOkIff(hs: seq<Handle>, heap: Heap, produced: seq<int>)
    requires |produced| == |hs|
    requires forall x :: x in hs ==> x in heap
    requires AllValid(heap)
    requires NoDup(hs)
    ensures StepEach(hs, heap, produced).Ok? <==> AllStepsOk(hs, heap, produced)
  {
    if |hs| > 0 {
      var sr := Step(heap[hs[0]], produced[0]);
      if sr.Ok? {
        TailShift(hs, heap, produced, sr.value.next);
        StepEachOkIff(hs[1..], heap[hs[0] := sr.value.next], produced[1..]);
      }
    }
  }

  /** With no machine held twice, stepping all leaves each machine in the state
      its own single step, taken from the state it was in, leads to. */
  lemma {:induction false} StepEachStepsEachOnce(hs: seq<Handle>, heap: Heap, produced: seq<int>)
    requires |produced| == |hs|
    requires forall x :: x in hs ==> x in heap
    requires AllValid(heap)
    requires NoDup(hs)
    requires StepEach(hs, heap, produced).Ok?
    ensures forall i :: 0 <= i < |hs| ==>
      Step(heap[hs[i]], produced[i]).Ok? &&
      StepEach(hs, heap, produced).value.heap[hs[i]] == Step(heap[hs[i]], produced[i]).value.next
  {
    if |hs| > 0 {
      var sr := Step(heap[hs[0]], produced[0]);
      TailShift(hs, heap, produced, sr.value.next);
      StepEachStepsEachOnce(hs[1..], heap[hs[0] := sr.value.next], produced[1..]);
    }
  }

  /** With no machine held twice, stepping all reports more work iff some
      machine's own step did; every machine is stepped regardless. */
  lemma {:induction false} StepEachMore(hs: seq<Handle>, heap: Heap, produced: seq<int>)
    requires |produced| == |hs|
    requires forall x :: x in hs ==> x in heap
    requires AllValid(heap)
    requires NoDup(hs)
    requires StepEach(hs, heap, produced).Ok?
    ensures StepEach(hs, heap, produced).value.more <==>
      exists i :: 0 <= i < |hs| && Step(heap[hs[i]], produced[i]).Ok? && Step(heap[hs[i]], produced[i]).value.more
  {
    if |hs| > 0 {
      var sr := Step(heap[hs[0]], produced[0]);
      var heap1 := heap[hs[0] := sr.value.next];
      TailShift(hs, heap, produced, sr.value.next);
      StepEachMore(hs[1..], heap1, produced[1..]);
      if StepEach(hs[1..], heap1, produced[1..]).value.more {
        var j :| 0 <= j < |hs| - 1 && Step(heap1[hs[1..][j]], produced[1..][j]).Ok? && Step(heap1[hs[1..][j]], produced[1..][j]).value.more;
        assert hs[j + 1] == hs[1..][j];
      }
    }
  }

  /** Enumeration yields the held machines in insertion order. */
  function Enumerate(s: MachineSet): (r: seq<Handle>) {
    s.members
  }

  /** Enumerating a new set after adding distinct machines yields exactly
      those machines, in the order they were added. */
  lemma EnumerateFromEmpty(hs: seq<Handle>)
    requires NoDup(hs)
    ensures Enumerate(AddAll(Empty(), hs)) == hs
  {
    assert Empty().members + hs == hs;
    EnumerationIsInsertionOrder(Empty(), hs);
  }

  /** Adds each handle in turn. */
  function AddAll(s: MachineSet, hs: seq<Handle>): (r: MachineSet)
    decreases |hs|
  {
    if |hs| == 0 then s else AddAll(Add(s, hs[0]), hs[1..])
  }

  /** Adding distinct machines one by one enumerates them in the order they
      were added, after those already held. */
  lemma {:induction false} EnumerationIsInsertionOrder(s: MachineSet, hs: seq<Handle>)
    requires NoDup(s.members + hs)
    ensures Enumerate(AddAll(s, hs)) == s.members + hs
    decreases |hs|
  {
    if |hs| > 0 {
      var all := s.members + hs;
      assert hs[0] == all[|s.members|];
      assert forall k :: 0 <= k < |s.members| ==> s.members[k] == all[k] != all[|s.members|];
      var s1 := Add(s, hs[0]);
      assert s1.members + hs[1..] == all;
      EnumerationIsInsertionOrder(s1, hs[1..]);
    }
  }
}

=== FILE: states.dfy ===
/** The `State` record: a handler's declared input and output transition ids,
    each assignable exactly once. The handler itself is not part of the value;
    the engine treats it as an opaque producer of an `int`. */
module States {
  import opened Wrappers

  /** `ins`/`outs` are the stored arrays (`None` is a null array);
      `inputSet`/`outputSet` record whether the property has been assigned. */
  datatype State = State(ins: Option<seq<int>>, outs: Option<seq<int>>, inputSet: bool, outputSet: bool)

  /** The exception a second assignment throws. */
  datatype StateError = InputsSetTwice | OutputsSetTwice

  /** A newly constructed state: both arrays null, neither flag raised. */
  function Fresh(): (r: State)
    ensures r.ins.None? && r.outs.None?
    ensures forall v :: SetIns(r, v).Ok? && SetOuts(r, v).Ok?
  {
    State(None, None, false, false)
  }

  /** The `Ins` setter. On failure the caller keeps the state it had, so the
      stored inputs are unchanged. */
  function SetIns(s: State, v: Option<seq<int>>): (r: Result<State, StateError>)
    ensures r.Ok? <==> !s.inputSet
    ensures r.Err? ==> r.error == InputsSetTwice
    ensures r.Ok? ==> r.value.ins == v && r.value.inputSet
    ensures r.Ok? ==> r.value.outs == s.outs && r.value.outputSet == s.outputSet
  {
    if s.inputSet then Err(InputsSetTwice) else Ok(s.(inputSet := true, ins := v))
  }

  /** The `Outs` setter, symmetric to `SetIns`. */
  function SetOuts(s: State, v: Option<seq<int>>): (r: Result<State, StateError>)
    ensures r.Ok? <==> !s.outputSet
    ensures r.Err? ==> r.error == OutputsSetTwice
    ensures r.Ok? ==> r.value.outs == v && r.value.outputSet
    ensures r.Ok? ==> r.value.ins == s.ins && r.value.inputSet == s.inputSet
  {
    if s.outputSet then Err(OutputsSetTwice) else Ok(s.(outputSet := true, outs := v))
  }

  /** `SetInputs(params int[])`: assignment of a (non-null) array through the
      `Ins` setter, hence set-once as well. */
  function SetInputs(s: State, ins: seq<int>): (r: Result<State, StateError>)
    ensures r.Ok? <==> !s.inputSet
    ensures r.Err? ==> r.error == InputsSetTwice
    ensures r.Ok? ==> r.value.ins == Some(ins) && r.value.outs == s.outs && r.value.outputSet == s.outputSet
  {
    SetIns(s, Some(ins))
  }

  /** `SetOutputs(params int[])`: assignment through the `Outs` setter. */
  function SetOutputs(s: State, outs: seq<int>): (r: Result<State, StateError>)
    ensures r.Ok? <==> !s.outputSet
    ensures r.Err? ==> r.error == OutputsSetTwice
    ensures r.Ok? ==> r.value.outs == Some(outs) && r.value.ins == s.ins && r.value.inputSet == s.inputSet
  {
    SetOuts(s, Some(outs))
  }

  /** A fresh state accepts one assignment of each property, storing the value
      given (null included); any further assignment of either one fails. */
  lemma FreshAssignsOnce(i: Option<seq<int>>, o: Option<seq<int>>, i2: Option<seq<int>>, o2: Option<seq<int>>)
    ensures Fresh().ins.None? && Fresh().outs.None? && !Fresh().inputSet && !Fresh().outputSet
    ensures SetIns(Fresh(), i).Ok? && SetOuts(SetIns(Fresh(), i).value, o).Ok?
    ensures var s := SetOuts(SetIns(Fresh(), i).value, o).value;
      && s.ins == i && s.outs == o && s.inputSet && s.outputSet
      && SetIns(s, i2) == Err(InputsSetTwice)
      && SetOuts(s, o2) == Err(OutputsSetTwice)
  {
  }

  /** Once `Ins` has been assigned, every later assignment fails. */
  lemma InsSetOnce(s: State, v: Option<seq<int>>, w: Option<seq<int>>, a: seq<int>)
    requires SetIns(s, v).Ok?
    ensures SetIns(SetIns(s, v).value, w) == Err(InputsSetTwice)
    ensures SetInputs(SetIns(s, v).value, a) == Err(InputsSetTwice)
  {
  }

  /** Once `Outs` has been assigned, every later assignment fails. */
  lemma OutsSetOnce(s: State, v: Option<seq<int>>, w: Option<seq<int>>, a: seq<int>)
    requires SetOuts(s, v).Ok?
    ensures SetOuts(SetOuts(s, v).value, w) == Err(OutputsSetTwice)
    ensures SetOutputs(SetOuts(s, v).value, a) == Err(OutputsSetTwice)
  {
  }

  /** The two properties are independent: assigning them in either order
      succeeds under the same condition and gives the same state. */
  lemma InsOutsCommute(s: State, i: Option<seq<int>>, o: Option<seq<int>>)
    ensures SetIns(s, i).Ok? && SetOuts(SetIns(s, i).value, o).Ok?
        <==> SetOuts(s, o).Ok? && SetIns(SetOuts(s, o).value, i).Ok?
    ensures SetIns(s, i).Ok? && SetOuts(SetIns(s, i).value, o).Ok? ==>
      SetOuts(SetIns(s, i).value, o).value == SetIns(SetOuts(s, o).value, i).value
  {
  }
}

=== FILE: wrappers.dfy ===
/** Null and exceptions in value form: `Option` stands for a nullable
    reference, `Result` for an operation that may throw. `Result` supports the
    `:-` operator, so a thrown exception propagates to the caller. */
module Wrappers {

  /** `None` plays the role of `null`. */
  datatype Option<+T> = None | Some(value: T)

  /** `Err` carries the kind of exception the operation would throw. */
  datatype Result<+T, +E> = Ok(value: T) | Err(error: E) {

    predicate IsFailure() {
      Err?
    }

    function PropagateFailure<U>(): Result<U, E>
      requires Err?
    {
      Err(error)
    }

    function Extract(): T
      requires Ok?
    {
      value
    }
  }
}
